=== FILE: README.md ===
# whats-gpt message debouncer, modelled in Dafny

The relay receives one-to-one WhatsApp messages. It collects a burst of
messages per chat and waits until the chat has been quiet for a while. It
then sends the joined text to one of two AI providers, making up to three
provider calls, and sends the answer back to the sender. This project
models the core of that relay, the `onMessage` handler in `src/index.ts`,
as pure Dafny:

- `RelayTypes`: the inbound message record and the handler's filter.
- `Config`: the start-up check of `AI_SELECTED` and the provider credentials.
  The environment is an input record.
- `Retries`: the retry loop around the provider call. It is modelled as a
  function of the provider's outcome on each attempt. `RunAttempts` is the
  imperative loop, proved equal to that function.
- `Text`: `Array.prototype.join` with the separator `" \n "`.
- `Debounce`: the per-chat state machine. The two process-wide maps
  (`messageBufferPerChatId`, `messageTimeouts`) are fields of an immutable
  `State`. The state also holds the set of scheduled timers, the callbacks
  still running (each with the prompt it sent), and a log of finished
  callbacks. A timer is a token that carries its chat and the message that
  armed it, because the callback closes over `message`. Time is replaced by
  the order of events: `Incoming(msg)`, `Fire(timer)`, and
  `FlushDone(timer, outcomes)`. `FlushDone` is the end of a running callback:
  the retry loop, then the send. `Step` applies one event and `Run` applies a
  trace of events. An event that cannot happen changes nothing. Examples are
  a cancelled or already-fired timer, or the completion of a callback that
  is not running.
- `Isolation`: the view of one chat. `ChatStep` is one chat's machine on its
  own, and `StepProjects` proves that the global machine is the product of
  these per-chat machines.
- `Bursts`: a burst of messages coalesces into one flush.
- `Quirks`: concrete interleavings that show what the code does when
  messages arrive while a flush is running.

The model follows the code as written. Some consequences of the code
that a reader might not expect:

- The buffer and the stored timer handle are deleted only after a
  successful send (src/index.ts:119-120). Firing the timer deletes neither.
- A flush whose three attempts all fail rethrows (src/index.ts:103) before
  that deletion, so a failed text is not dropped: it stays buffered. If the
  process survives the rethrow, the next burst of that chat sends it again
  (`Quirks.FailedTextResent`). The rethrow happens inside an `async` timer
  callback, so nothing catches it. Whether the process survives depends on
  how the runtime treats unhandled promise rejections (see "## Left out").
- Nothing stops a later timer of a chat from firing while an earlier
  callback of that chat is still waiting for the provider. Two flushes of
  one chat can therefore overlap (`Quirks.FlushesOverlap`).
- Deleting the map entry does not cancel the timer it names. A timer armed
  during a flush stays scheduled after the flush deletes its handle. A chat
  can then have two pending timers (`Quirks.OrphanTimerStaysPending`), and
  one body can be answered twice (`Quirks.StaleTimerRepeatsBody`).
- A body can be lost (`Quirks.MiddleMessageDropped`). This happens when
  two more messages arrive during a flush, and that flush is answered
  before the last message's timer fires. The answer deletes the buffer that
  holds the middle body. The last timer then finds no buffer and sends only
  its own body. If that flush gives up instead, nothing is deleted and the
  middle body goes out with the next flush.
- `AI_SELECTED` is cast without a check. A value other than `GPT` or
  `GEMINI` passes both credential checks and uses the Google provider
  (`Config.OtherSelectionUsesGoogleUnchecked`).

## Model

| member | source | states |
|---|---|---|
| `Config.CheckConfig` | src/index.ts:12-28 | Start-up refuses with the Gemini error exactly when the selection is `GEMINI` (explicitly or by the default in `Config.SelectedAI`, where an unset or empty `AI_SELECTED` means `GEMINI`) and `GEMINI_KEY` is missing or empty. It refuses with the OpenAI error exactly when the selection is `GPT` and the key or the assistant id is missing. When it starts, the provider is OpenAI exactly for `GPT`. That provider is the one `Config.ProviderFor` picks at every flush. |
| `Config.ProviderFor` | src/index.ts:89-98 | The provider each flush calls: OpenAI exactly for `GPT`, Google for every other selection. It is a definition. `Config.CheckConfig` and `Config.OtherSelectionUsesGoogleUnchecked` state which environments reach each provider. |
| `Config.DefaultIsGemini` | src/index.ts:15-19 | With `AI_SELECTED` unset, the relay starts exactly when a Gemini key is present, and it then uses Google. |
| `Config.GptNeedsKeyAndAssistant` | src/index.ts:21-28 | `GPT` starts on OpenAI exactly when both `OPENAI_KEY` and `OPENAI_ASSISTANT` are set. Otherwise it is refused with the OpenAI error. |
| `Config.OtherSelectionUsesGoogleUnchecked` | src/index.ts:15-28 | A selection other than `GPT` or `GEMINI` starts on Google whatever keys are present. |
| `RelayTypes.Accepted` | src/index.ts:51-55 | The handler's filter: type `chat`, not a group message, and not the `status@broadcast` chat. It is a definition. `Bursts.FilterGate` proves that a message changes the state exactly when it passes. |
| `Retries.RetryFrom` | src/index.ts:87-106 | From attempt k on, the loop makes between k and 3 calls. Every call before the last one made failed. An answer is the last call's answer. Giving up happens only at call 3, with call 3's error. |
| `Retries.Retry` | src/index.ts:87-106 | The whole loop makes 1 to 3 calls. The calls before the last one made failed. The answer comes from the last call made. A give-up rethrows the third error. |
| `Retries.RetryStopsAtFirstSuccess` | src/index.ts:87-100 | If attempts 1..k-1 fail and attempt k succeeds, exactly k calls happen and the k-th answer is used. |
| `Retries.RetryGivesUpIffAllFail` | src/index.ts:101-106 | The loop gives up exactly when all three attempts fail, and it propagates the third error. |
| `Retries.RunAttempts` | src/index.ts:87-106 | The imperative loop as written (attempts 1 to 3, stop at the first answer, rethrow when the failing attempt is number 3) computes the same result as `Retry`. |
| `Text.Join` | src/index.ts:81 | Joining no parts gives the empty string. Otherwise the length is the sum of the parts plus one separator between each pair of neighbours, and the text starts with the first part. |
| `Text.JoinSnoc` | src/index.ts:81 | Appending a part to the list appends a separator and that part to the end of the joined text, so arrival order is text order. |
| `Text.JoinTwo` | src/index.ts:81 | `"a"` then `"b"` join to `"a \n b"`. |
| `Debounce.OnMessage` | src/index.ts:62-77 | A message appends its body at the end of its chat's buffer, or creates `[body]`. It cancels the stored timer and stores a new one that carries this message and is not already pending or running. After the step the stored handle is that new timer. No other chat's buffer or handle changes, and no running callback changes. |
| `Debounce.OnMessageInv` | src/index.ts:62-77 | A message keeps the invariant: buffer and handle exist together, and the handle is the chat's newest timer and carries the buffer's last body. |
| `Debounce.OnFire` | src/index.ts:78-81 | A firing timer leaves the pending set and starts a callback. Its prompt, defined by `Debounce.Prompt`, is the chat's buffer joined in arrival order, or the timer's own body if there is no buffer. Neither map changes. |
| `Debounce.OnFlushDone` | src/index.ts:101-120 | After an answer, the answer is sent to the captured sender, and the log entry records the callback's prompt and the answer. Both map entries of the chat are deleted, even entries stored during the flush, and every scheduled timer stays scheduled. After three failures nothing is deleted and nothing is sent. |
| `Debounce.Step` | src/index.ts:50-124 | Every event keeps the invariant of reachable states. |
| `Debounce.Run` | src/index.ts:50-124 | Every trace of events keeps the invariant of reachable states. |
| `Debounce.InitInv` | src/index.ts:10-11 | The empty maps at start-up satisfy the invariant. |
| `Isolation.ChatStep` | src/index.ts:50-124 | One chat's machine on its own. A rejected message changes nothing. A message bumps the timer count. A firing leaves the buffer and handle alone. A completion leaves the pending timers alone. |
| `Isolation.StepProjects` | src/index.ts:56-120 | Every event changes only its own chat, and in exactly the way that chat's machine `ChatStep` says. |
| `Isolation.RunElsewhere` | src/index.ts:56-120 | A trace with no event about chat d leaves d's buffer, handle, timers, flushes and replies unchanged. |
| `Isolation.RunProjects` | src/index.ts:56-120 | After any interleaving, chat d is what its own machine reaches on d's events alone. A flush for one chat never sees another chat's text. |
| `Bursts.FilterGate` | src/index.ts:51-55 | A message changes the state exactly when its type is `chat`, it is not a group message, and its chat is not `status@broadcast`. |
| `Bursts.MessageLeavesOnePending` | src/index.ts:71-77 | If a chat's only pending timer is its stored handle (or it has none), then after a message its only pending timer is the new handle. |
| `Bursts.IdleIffUnbuffered` | src/index.ts:62-77 | On a reachable state, a chat is idle exactly when it has no buffer and no pending timer. |
| `Bursts.BurstBuffers` | src/index.ts:62-77 | A burst of messages to a chat with no buffer and no pending timer leaves the bodies buffered in arrival order. Exactly one timer of the chat is pending: the stored handle, carrying the last body. |
| `Bursts.BurstFlushesOnce` | src/index.ts:71-81 | When that timer fires, exactly one callback starts. Its prompt is the burst's bodies joined in arrival order, and no timer of the chat is left to start another. |
| `Bursts.FiredHandle` | src/index.ts:78-81 | Firing a chat's only pending timer starts its callback with the joined buffer as prompt and leaves nothing pending for the chat. |
| `Bursts.TwoMessagesOneFlush` | src/index.ts:62-81 | `"a"` then `"b"` to an idle chat give one callback, with prompt `"a \n b"`. |
| `Bursts.QuietFlushEndsIdle` | src/index.ts:62-120 | The per-chat machine's view of a one-message burst: answered before the next message, it leaves the chat idle again with one more timer armed, the same running callbacks and one reply logged. `Bursts.BurstAnsweredEndsIdle` states the same for bursts of any length. |
| `Bursts.AnsweredFlushIdles` | src/index.ts:101-120 | An answered callback of a chat with no timer pending leaves the chat idle, logs one reply with the callback's prompt to the captured sender, and ends that callback. |
| `Bursts.HandleAnswered` | src/index.ts:78-120 | Firing a chat's only pending timer and answering its callback leaves the chat idle. One reply for the joined buffer is logged, and the other running callbacks are as they were. |
| `Bursts.BurstAnsweredEndsIdle` | src/index.ts:62-120 | A burst of any length to an idle chat, fired and answered before the chat's next message, leaves the chat idle again with exactly one reply, whose prompt is the burst's bodies joined in arrival order. Each gap longer than the quiet window therefore gives the next burst a provider call of its own. |
| `Quirks.MiddleMessageDropped` | src/index.ts:79-120 | "a" fires, then "b" and "c" arrive during its flush. The answer to "a" deletes `["a","b","c"]`, "c"'s timer later sends only "c", and "b" is lost. |
| `Quirks.FailedTextResent` | src/index.ts:101-120 | After three failures the buffer `["a"]` and the fired handle stay. The next message's flush sends `"a \n b"`. |
| `Quirks.FlushesOverlap` | src/index.ts:71-81 | A second timer of the chat can fire while the first flush runs. Two flushes of one chat then run at once, and the second repeats "a". |
| `Quirks.OrphanTimerStaysPending` | src/index.ts:71-120 | The answer to "a" deletes the handle of "b"'s timer without cancelling it. After "c", two distinct timers of one chat are pending. |
| `Quirks.StaleTimerRepeatsBody` | src/index.ts:79-120 | With a stale timer and the stored one both pending over buffer `[x]`, both callbacks send `x`, so the sender gets two replies about one message. |

## Left out

- Session creation, the QR and status callbacks, and the `.then`/`.catch` bootstrap (src/index.ts:30-47) are transport I/O.
- `startTyping`/`stopTyping` (src/index.ts:85, 109) are presence calls whose errors are swallowed. They change no state.
- The `await initializeNewAIChatSession(chatId)` for `GPT` (src/index.ts:58-60) is treated as atomic and omitted. Another message's handler could run during that await; that reordering is not modelled. A rejection of that call is omitted too. The handler would then exit before src/index.ts:62, so the message would never be buffered, and the rejection would go unhandled like the one under `Debounce.OnFlushDone` below.
- `mainOpenAI`, `mainGoogle` and the session service are network clients in files that are not part of this model. Each provider call is one entry of an opaque outcome list (`Ok(answer)` or `Err(error)`). The provider chosen at start-up is not threaded into `Step`, because both are called the same way.
- `splitMessages` and `sendMessagesWithDelay` come from `./util`, which is not part of this model. Sending is one abstract step: the `Replied` entry in the log.
- `Debounce.OnFlushDone`: assumes the process survives the rethrow of the third error (src/index.ts:103). The rethrow happens inside an `async` callback passed to `setTimeout`, so it is an unhandled promise rejection. Since Node 15 the default response to that ends the process. The model describes a runtime that keeps running: a process-level handler, a non-default `--unhandled-rejections` mode, or an older Node. Otherwise nothing after the rethrow happens, and `Quirks.FailedTextResent` does not apply.
- `Debounce.OnFlushDone`: assumes the send completes. A synchronous throw from `splitMessages` (src/index.ts:111) or a throw from `sendMessagesWithDelay` would also skip the deletion at src/index.ts:119-120. That case is not modelled, because the code of both helpers is not part of this model.
- The 15000 ms delay is replaced by event order. Any scheduled timer may fire next, so the model allows every timing. It does not encode that a later-armed timer fires later.
- `dotenv`, reading `process.env`, and `console` logging are left out. The environment is the `Config.Env` input record.
- A `FlushDone` whose outcome list is shorter than three entries is treated as an event that cannot happen, and it changes nothing.

=== FILE: bursts.dfy ===
/** Trace-level behaviour of one chat: the filter, and a burst of messages
    coalescing into a single flush whose prompt is the bodies in order. */
module Bursts {
  import opened RelayTypes
  import opened Retries
  import opened Text
  import opened Debounce
  import opened Isolation

  /** A message changes the state exactly when it passes the filter. */
  lemma FilterGate(s: State, m: Inbound)
    requires Inv(s)
    ensures Step(s, Incoming(m)) == s <==> !Accepted(m)
  {
    if Accepted(m) {
      assert ArmedFor(Step(s, Incoming(m)), m.chatId) != ArmedFor(s, m.chatId);
    }
  }

  /** Every event of `trace` is an accepted message to chat `c`. */
  predicate MessagesTo(trace: seq<Event>, c: ChatId) {
    forall i :: 0 <= i < |trace| ==> trace[i].Incoming? && Accepted(trace[i].msg) && trace[i].msg.chatId == c
  }

  /** The bodies of a trace of messages, in arrival order. */
  function Bodies(trace: seq<Event>): (r: seq<string>)
    requires forall i :: 0 <= i < |trace| ==> trace[i].Incoming?
    ensures |r| == |trace|
    ensures forall i :: 0 <= i < |trace| ==> r[i] == trace[i].msg.body
    decreases |trace|
  {
    if |trace| == 0 then [] else Bodies(trace[..|trace| - 1]) + [Last(trace).msg.body]
  }

  lemma RunLastMessage(s: State, trace: seq<Event>, c: ChatId)
    requires Inv(s)
    requires |trace| >= 1 && MessagesTo(trace, c)
    ensures Run(s, trace) == OnMessage(Run(s, trace[..|trace| - 1]), Last(trace).msg)
  {
  }

  /** On a message, the timers pending for its chat go from none, or just
      the stored handle, to just the new handle. */
  lemma MessageLeavesOnePending(prev: State, m: Inbound)
    requires Inv(prev)
    requires PendingOf(prev, m.chatId) == if m.chatId in prev.timeouts then {prev.timeouts[m.chatId]} else {}
    ensures PendingOf(OnMessage(prev, m), m.chatId) == {OnMessage(prev, m).timeouts[m.chatId]}
  {
    var c := m.chatId;
    var h := OnMessage(prev, m).timeouts[c];
    if c in prev.timeouts {
      TimersOfRemove(prev.scheduled, prev.timeouts[c], c);
      TimersOfAdd(prev.scheduled - {prev.timeouts[c]}, h, c);
    } else {
      TimersOfAdd(prev.scheduled, h, c);
    }
  }

  /** On a reachable state, a chat is idle exactly when it has no buffer
      and no pending timer: the stored handle goes with the buffer, and
      every running callback was armed before now. */
  lemma IdleIffUnbuffered(s: State, c: ChatId)
    requires Inv(s)
    ensures Idle(View(s, c)) <==> c !in s.buffers && PendingOf(s, c) == {}
  {
  }

  /** A burst of messages to a chat with no buffer and no pending timer
      (an idle chat, by `IdleIffUnbuffered`) leaves the bodies buffered in
      arrival order and exactly one pending timer for the chat: the stored
      handle, armed by the last message. */
  lemma {:induction false} BurstBuffers(s: State, trace: seq<Event>, c: ChatId)
    requires Inv(s)
    requires c !in s.buffers && PendingOf(s, c) == {}
    requires |trace| >= 1 && MessagesTo(trace, c)
    ensures c in Run(s, trace).buffers && c in Run(s, trace).timeouts
    ensures Run(s, trace).buffers[c] == Bodies(trace)
    ensures Run(s, trace).timeouts[c].body == Last(trace).msg.body
    ensures PendingOf(Run(s, trace), c) == {Run(s, trace).timeouts[c]}
    ensures Run(s, trace).flushing == s.flushing && Run(s, trace).log == s.log
    decreases |trace|
  {
    var init := trace[..|trace| - 1];
    var prev := Run(s, init);
    if |init| == 0 {
      assert prev == s;
    } else {
      BurstBuffers(s, init, c);
    }
    MessageLeavesOnePending(prev, Last(trace).msg);
    RunLastMessage(s, trace, c);
    assert Bodies(trace) == Bodies(init) + [Last(trace).msg.body];
  }

  /** ... and when that timer fires, one callback starts, with the bodies
      joined in arrival order as its prompt, and no timer of the chat is
      left to start another. */
  lemma BurstFlushesOnce(s: State, trace: seq<Event>, c: ChatId)
    requires Inv(s)
    requires Idle(View(s, c))
    requires |trace| >= 1 && MessagesTo(trace, c)
    ensures c in Run(s, trace).timeouts
    ensures Run(s, trace).timeouts[c] !in s.flushing
    ensures Step(Run(s, trace), Fire(Run(s, trace).timeouts[c])).flushing
              == s.flushing[Run(s, trace).timeouts[c] := Join(Bodies(trace), Separator)]
    ensures PendingOf(Step(Run(s, trace), Fire(Run(s, trace).timeouts[c])), c) == {}
  {
    IdleIffUnbuffered(s, c);
    BurstBuffers(s, trace, c);
    var s1 := Run(s, trace);
    var h := s1.timeouts[c];
    FiredHandle(s1, h);
  }

  /** Firing the only pending timer of a chat leaves none pending, and the
      callback's prompt is the joined buffer. */
  lemma FiredHandle(s1: State, h: Timer)
    requires Inv(s1)
    requires h.chat in s1.buffers && PendingOf(s1, h.chat) == {h}
    ensures h !in s1.flushing
    ensures Step(s1, Fire(h)).flushing == s1.flushing[h := Join(s1.buffers[h.chat], Separator)]
    ensures PendingOf(Step(s1, Fire(h)), h.chat) == {}
  {
    assert h in s1.scheduled;
    assert Step(s1, Fire(h)) == OnFire(s1, h);
    TimersOfRemove(s1.scheduled, h, h.chat);
  }

  /** An answered callback whose chat has no timer pending leaves the chat
      idle, with one reply logged for the callback's prompt. */
  lemma AnsweredFlushIdles(s2: State, h: Timer, o: seq<Outcome>)
    requires Inv(s2)
    requires h in s2.flushing && PendingOf(s2, h.chat) == {}
    requires MaxRetries <= |o| && Retry(o).Answered?
    ensures Idle(View(Step(s2, FlushDone(h, o)), h.chat))
    ensures Step(s2, FlushDone(h, o)).log
              == s2.log + [Replied(h.chat, h.from, s2.flushing[h], Retry(o).answer, Retry(o).attempts)]
    ensures Step(s2, FlushDone(h, o)).flushing == s2.flushing - {h}
  {
    var s3 := OnFlushDone(s2, h, o);
    assert Step(s2, FlushDone(h, o)) == s3;
    assert PendingOf(s3, h.chat) == PendingOf(s2, h.chat);
    IdleIffUnbuffered(s3, h.chat);
  }

  /** Firing a chat's only pending timer and answering its callback leaves
      the chat idle, with one reply for the joined buffer and the running
      callbacks as they were. */
  lemma HandleAnswered(s1: State, h: Timer, o: seq<Outcome>)
    requires Inv(s1)
    requires h.chat in s1.buffers && PendingOf(s1, h.chat) == {h}
    requires MaxRetries <= |o| && Retry(o).Answered?
    ensures var s3 := Step(Step(s1, Fire(h)), FlushDone(h, o));
            && Idle(View(s3, h.chat))
            && s3.log == s1.log + [Replied(h.chat, h.from, Join(s1.buffers[h.chat], Separator), Retry(o).answer, Retry(o).attempts)]
            && s3.flushing == s1.flushing
  {
    FiredHandle(s1, h);
    var s2 := Step(s1, Fire(h));
    assert s2.log == s1.log;
    AnsweredFlushIdles(s2, h, o);
    assert s2.flushing - {h} == s1.flushing;
  }

  /** A burst of any length to an idle chat, flushed and answered before the
      chat's next message, leaves the chat idle again with one reply for
      the whole burst. The next message therefore starts a new burst, and
      `BurstFlushesOnce` gives it a provider call of its own. */
  lemma BurstAnsweredEndsIdle(s: State, trace: seq<Event>, c: ChatId, o: seq<Outcome>)
    requires Inv(s)
    requires Idle(View(s, c))
    requires |trace| >= 1 && MessagesTo(trace, c)
    requires MaxRetries <= |o| && Retry(o).Answered?
    ensures c in Run(s, trace).timeouts
    ensures var s1 := Run(s, trace);
            var h := s1.timeouts[c];
            var s3 := Step(Step(s1, Fire(h)), FlushDone(h, o));
            && Idle(View(s3, c))
            && s3.log == s.log + [Replied(c, h.from, Join(Bodies(trace), Separator), Retry(o).answer, Retry(o).attempts)]
            && s3.flushing == s.flushing
  {
    IdleIffUnbuffered(s, c);
    BurstBuffers(s, trace, c);
    var s1 := Run(s, trace);
    var h := s1.timeouts[c];
    assert h.chat == c;
    HandleAnswered(s1, h, o);
  }

  lemma TwoBodiesJoined(m1: Inbound, m2: Inbound)
    ensures Join(Bodies([Incoming(m1), Incoming(m2)]), Separator) == m1.body + " \n " + m2.body
  {
    assert Bodies([Incoming(m1), Incoming(m2)]) == [m1.body, m2.body];
    JoinTwo(m1.body, m2.body);
  }

  /** Two messages "a" then "b" to an idle chat give one flush whose prompt
      is "a \n b": arrival order, one callback, nothing pending after it. */
  lemma TwoMessagesOneFlush(s: State, m1: Inbound, m2: Inbound)
    requires Inv(s)
    requires Accepted(m1) && Accepted(m2) && m1.chatId == m2.chatId
    requires Idle(View(s, m1.chatId))
    ensures var s1 := Run(s, [Incoming(m1), Incoming(m2)]);
            && m1.chatId in s1.timeouts
            && Step(s1, Fire(s1.timeouts[m1.chatId])).flushing
                 == s.flushing[s1.timeouts[m1.chatId] := m1.body + " \n " + m2.body]
            && PendingOf(Step(s1, Fire(s1.timeouts[m1.chatId])), m1.chatId) == {}
  {
    TwoBodiesJoined(m1, m2);
    assert MessagesTo([Incoming(m1), Incoming(m2)], m1.chatId);
    BurstFlushesOnce(s, [Incoming(m1), Incoming(m2)], m1.chatId);
  }

  /** A one-message burst whose flush is answered before anything else
      arrives for the chat leaves the chat idle again, with the same running
      callbacks and one more timer armed. The lemma applies again to the
      next message, which therefore gets a provider call of its own. */
  lemma QuietFlushEndsIdle(v: ChatView, m: Inbound, o: seq<Outcome>)
    requires Accepted(m) && Idle(v)
    requires MaxRetries <= |o| && Retry(o).Answered?
    ensures
      var v1 := ChatStep(v, Incoming(m));
      var t := v1.handle.value;
      var v3 := ChatStep(ChatStep(v1, Fire(t)), FlushDone(t, o));
      && Idle(v3) && v3.armed == v.armed + 1
      && v3.flights == v.flights
      && v3.effects == v.effects + [Replied(m.chatId, m.from, m.body, Retry(o).answer, Retry(o).attempts)]
  {
    var t := ChatStep(v, Incoming(m)).handle.value;
    assert t !in v.flights;
  }
}

=== FILE: config.dfy ===
/** Start-up configuration: which AI provider is selected and whether the
    credentials that provider needs are present. The process environment is
    an input record; an unset variable is `None`. */
module Config {
  import opened RelayTypes

  datatype Env = Env(
    aiSelected: Option<string>,
    geminiKey: Option<string>,
    openaiKey: Option<string>,
    openaiAssistant: Option<string>)

  datatype Provider = OpenAI | Google

  datatype ConfigError = MissingGeminiKey | MissingOpenAICredentials

  datatype Startup = Started(provider: Provider) | Refused(error: ConfigError)

  /** JavaScript truthiness of an environment variable: set and non-empty. */
  predicate Truthy(v: Option<string>) {
    v.Some? && v.value != ""
  }

  /** `process.env.AI_SELECTED || 'GEMINI'`. The cast to the two-valued
      option type is not checked, so any non-empty string comes through. */
  function SelectedAI(env: Env): string {
    if Truthy(env.aiSelected) then env.aiSelected.value else "GEMINI"
  }

  /** The provider every flush calls: OpenAI exactly for "GPT", Google for
      everything else. */
  function ProviderFor(selected: string): Provider {
    if selected == "GPT" then OpenAI else Google
  }

  /** The two start-up checks, in source order; the first failure aborts. */
  function CheckConfig(env: Env): (r: Startup)
    ensures r == Refused(MissingGeminiKey) <==>
              (!Truthy(env.aiSelected) || env.aiSelected.value == "GEMINI") && !Truthy(env.geminiKey)
    ensures r == Refused(MissingOpenAICredentials) <==>
              Truthy(env.aiSelected) && env.aiSelected.value == "GPT"
              && (!Truthy(env.openaiKey) || !Truthy(env.openaiAssistant))
    ensures r.Started? ==> (r.provider == OpenAI <==> Truthy(env.aiSelected) && env.aiSelected.value == "GPT")
  {
    var sel := SelectedAI(env);
    if sel == "GEMINI" && !Truthy(env.geminiKey) then Refused(MissingGeminiKey)
    else if sel == "GPT" && (!Truthy(env.openaiKey) || !Truthy(env.openaiAssistant)) then Refused(MissingOpenAICredentials)
    else Started(ProviderFor(sel))
  }

  /** With AI_SELECTED unset or empty the relay runs on Google, and starts
      exactly when a Gemini key is present. */
  lemma DefaultIsGemini(env: Env)
    requires !Truthy(env.aiSelected)
    ensures CheckConfig(env).Started? <==> Truthy(env.geminiKey)
    ensures CheckConfig(env).Started? ==> CheckConfig(env).provider == Google
  {
  }

  /** "GPT" starts exactly when both the OpenAI key and the assistant id are set. */
  lemma GptNeedsKeyAndAssistant(env: Env)
    requires env.aiSelected == Some("GPT")
    ensures CheckConfig(env) == Started(OpenAI) <==> Truthy(env.openaiKey) && Truthy(env.openaiAssistant)
    ensures CheckConfig(env) != Started(OpenAI) ==> CheckConfig(env) == Refused(MissingOpenAICredentials)
  {
  }

  /** A value that is neither "GPT" nor "GEMINI" passes both checks whatever
      keys are present, and the relay then calls the Google provider. */
  lemma OtherSelectionUsesGoogleUnchecked(env: Env)
    requires Truthy(env.aiSelected)
    requires env.aiSelected.value != "GPT" && env.aiSelected.value != "GEMINI"
    ensures CheckConfig(env) == Started(Google)
  {
  }
}

=== FILE: debounce.dfy ===
/** The per-chat debounce state machine of the message handler.

    The two process-wide maps become fields of an immutable `State`. A timer
    is a token carrying the chat and the message whose arrival armed it,
    since the callback closes over that message. Real time is replaced by
    the order of events: the event loop runs one handler or callback step at
    a time, so a trace of events determines the behaviour. */
module Debounce {
  import opened RelayTypes
  import opened Retries
  import opened Text

  /** A debounce timer. `id` numbers the timers armed for `chat`, so that
      every token is distinct; `from` and `body` are the captured message's. */
  datatype Timer = Timer(chat: ChatId, id: nat, from: string, body: string)

  /** What a finished flush callback did: reply to the sender, or rethrow the
      provider's last error. */
  datatype Effect =
    | Replied(chat: ChatId, to: string, prompt: string, answer: string, attempts: nat)
    | Abandoned(chat: ChatId, prompt: string, error: string)

  datatype State = State(
    buffers: map<ChatId, seq<string>>,  // messageBufferPerChatId
    timeouts: map<ChatId, Timer>,       // messageTimeouts
    scheduled: set<Timer>,              // armed and neither cancelled nor fired
    flushing: map<Timer, string>,       // fired callbacks still running, with their prompt
    armed: map<ChatId, nat>,            // how many timers each chat has armed
    log: seq<Effect>)                   // finished callbacks, in order

  datatype Event =
    | Incoming(msg: Inbound)                          // the client delivers a message
    | Fire(timer: Timer)                              // a scheduled timer expires
    | FlushDone(timer: Timer, outcomes: seq<Outcome>) // a running callback completes

  const Init: State := State(map[], map[], {}, map[], map[], [])

  function ArmedFor(s: State, c: ChatId): nat {
    if c in s.armed then s.armed[c] else 0
  }

  function Last<T>(xs: seq<T>): T
    requires |xs| > 0
  {
    xs[|xs| - 1]
  }

  /** The chat an event concerns. */
  function EventChat(e: Event): ChatId {
    match e
    case Incoming(m) => m.chatId
    case Fire(t) => t.chat
    case FlushDone(t, _) => t.chat
  }

  /** Each chat with a buffer has a stored handle and vice versa; the handle
      is the newest timer of its chat and captured the buffer's last body. */
  ghost predicate HandlesMatchBuffers(s: State) {
    && (forall c :: c in s.buffers <==> c in s.timeouts)
    && (forall c :: c in s.timeouts ==>
          && c in s.buffers
          && |s.buffers[c]| > 0
          && s.timeouts[c].chat == c
          && s.timeouts[c].body == Last(s.buffers[c])
          && s.timeouts[c].id + 1 == ArmedFor(s, c))
  }

  /** Every pending or running token was armed already, and none is both. */
  ghost predicate TokensArmed(s: State) {
    && (forall t :: t in s.scheduled ==> t.id < ArmedFor(s, t.chat))
    && (forall t :: t in s.flushing ==> t.id < ArmedFor(s, t.chat))
    && s.scheduled !! s.flushing.Keys
  }

  /** The invariant of reachable states. */
  ghost predicate Inv(s: State) {
    HandlesMatchBuffers(s) && TokensArmed(s)
  }

  /** An accepted message: append its body to the end of the chat's buffer
      (or start the buffer), cancel the stored timer, arm and store a new one. */
  function OnMessage(s: State, m: Inbound): (s': State)
    requires Inv(s)
    ensures m.chatId in s'.buffers && m.chatId in s'.timeouts
    ensures m.chatId in s.buffers ==> s'.buffers[m.chatId] == s.buffers[m.chatId] + [m.body]
    ensures m.chatId !in s.buffers ==> s'.buffers[m.chatId] == [m.body]
    ensures s'.timeouts[m.chatId] == Timer(m.chatId, ArmedFor(s, m.chatId), m.from, m.body)
    ensures s'.timeouts[m.chatId] !in s.scheduled && s'.timeouts[m.chatId] !in s.flushing
    ensures s'.timeouts[m.chatId] in s'.scheduled
    ensures m.chatId in s.timeouts ==> s.timeouts[m.chatId] !in s'.scheduled
    ensures m.chatId in s.timeouts ==> s'.scheduled == s.scheduled - {s.timeouts[m.chatId]} + {s'.timeouts[m.chatId]}
    ensures m.chatId !in s.timeouts ==> s'.scheduled == s.scheduled + {s'.timeouts[m.chatId]}
    ensures forall d :: d != m.chatId ==> (d in s'.buffers <==> d in s.buffers) && (d in s'.timeouts <==> d in s.timeouts)
    ensures forall d :: d != m.chatId && d in s.buffers ==> s'.buffers[d] == s.buffers[d]
    ensures forall d :: d != m.chatId && d in s.timeouts ==> s'.timeouts[d] == s.timeouts[d]
    ensures forall d :: ArmedFor(s', d) == if d == m.chatId then ArmedFor(s, d) + 1 else ArmedFor(s, d)
    ensures s'.flushing == s.flushing && s'.log == s.log
  {
    var c := m.chatId;
    var buffer := if c in s.buffers then s.buffers[c] + [m.body] else [m.body];
    var pending := if c in s.timeouts then s.scheduled - {s.timeouts[c]} else s.scheduled;
    var t := Timer(c, ArmedFor(s, c), m.from, m.body);
    s.(buffers := s.buffers[c := buffer],
       timeouts := s.timeouts[c := t],
       scheduled := pending + {t},
       armed := s.armed[c := ArmedFor(s, c) + 1])
  }

  /** The text a callback sends: the chat's buffer joined in arrival order,
      or the callback's own captured body when the chat has no buffer. */
  function Prompt(s: State, t: Timer): string {
    if t.chat in s.buffers then Join(s.buffers[t.chat], Separator) else t.body
  }

  lemma OnMessageInv(s: State, m: Inbound)
    requires Inv(s)
    ensures Inv(OnMessage(s, m))
  {
    OnMessageHandles(s, m);
    OnMessageTokens(s, m);
  }

  lemma OnMessageHandles(s: State, m: Inbound)
    requires Inv(s)
    ensures HandlesMatchBuffers(OnMessage(s, m))
  {
    var s' := OnMessage(s, m);
    var c := m.chatId;
    forall d | d in s'.timeouts
      ensures d in s'.buffers && |s'.buffers[d]| > 0 && s'.timeouts[d].chat == d
      ensures s'.timeouts[d].body == Last(s'.buffers[d]) && s'.timeouts[d].id + 1 == ArmedFor(s', d)
    {
      if d != c {
        assert ArmedFor(s', d) == ArmedFor(s, d);
      }
    }
  }

  lemma OnMessageTokens(s: State, m: Inbound)
    requires Inv(s)
    ensures TokensArmed(OnMessage(s, m))
  {
    var s' := OnMessage(s, m);
    var c := m.chatId;
    forall t | t in s'.scheduled
      ensures t.id < ArmedFor(s', t.chat)
    {
      if t != s'.timeouts[c] {
        assert t in s.scheduled;
        assert ArmedFor(s, t.chat) <= ArmedFor(s', t.chat);
      }
    }
    forall t | t in s'.flushing
      ensures t.id < ArmedFor(s', t.chat)
    {
      assert t in s.flushing;
      assert ArmedFor(s, t.chat) <= ArmedFor(s', t.chat);
    }
  }

  /** A scheduled timer expires: its callback starts and fixes its prompt.
      Neither map is touched; the fired handle stays stored. */
  function OnFire(s: State, t: Timer): (s': State)
    requires Inv(s)
    requires t in s.scheduled
    ensures t !in s'.scheduled && t in s'.flushing && t !in s.flushing
    ensures t.chat in s.buffers ==> s'.flushing[t] == Join(s.buffers[t.chat], Separator)
    ensures t.chat !in s.buffers ==> s'.flushing[t] == t.body
    ensures s'.buffers == s.buffers && s'.timeouts == s.timeouts
    ensures s'.scheduled == s.scheduled - {t}
    ensures s'.flushing == s.flushing[t := s'.flushing[t]]
    ensures s'.armed == s.armed && s'.log == s.log
    ensures Inv(s')
  {
    s.(scheduled := s.scheduled - {t}, flushing := s.flushing[t := Prompt(s, t)])
  }

  /** A running callback completes after at most three provider calls. On
      an answer the reply is sent and both map entries of the chat are
      deleted, whatever they hold by now; when the third call throws, the
      error escapes before the deletion and both entries stay. */
  function OnFlushDone(s: State, t: Timer, outcomes: seq<Outcome>): (s': State)
    requires Inv(s)
    requires t in s.flushing
    requires MaxRetries <= |outcomes|
    ensures s'.flushing == s.flushing - {t}
    ensures s'.scheduled == s.scheduled && s'.armed == s.armed
    ensures Retry(outcomes).Answered? ==>
              && s'.buffers == s.buffers - {t.chat}
              && s'.timeouts == s.timeouts - {t.chat}
              && s'.log == s.log + [Replied(t.chat, t.from, s.flushing[t], Retry(outcomes).answer, Retry(outcomes).attempts)]
    ensures Retry(outcomes).GaveUp? ==>
              && s'.buffers == s.buffers
              && s'.timeouts == s.timeouts
              && s'.log == s.log + [Abandoned(t.chat, s.flushing[t], Retry(outcomes).error)]
    ensures Inv(s')
  {
    var prompt := s.flushing[t];
    match Retry(outcomes)
    case Answered(answer, attempts) =>
      s.(buffers := s.buffers - {t.chat},
         timeouts := s.timeouts - {t.chat},
         flushing := s.flushing - {t},
         log := s.log + [Replied(t.chat, t.from, prompt, answer, attempts)])
    case GaveUp(error, _) =>
      s.(flushing := s.flushing - {t},
         log := s.log + [Abandoned(t.chat, prompt, error)])
  }

  /** One event. Rejected messages, timers that are not scheduled (cancelled,
      fired, or never armed) and completions of callbacks that are not
      running change nothing. */
  function Step(s: State, e: Event): (s': State)
    requires Inv(s)
    ensures Inv(s')
  {
    match e
    case Incoming(m) => if Accepted(m) then OnMessageInv(s, m); OnMessage(s, m) else s
    case Fire(t) => if t in s.scheduled then OnFire(s, t) else s
    case FlushDone(t, o) => if t in s.flushing && MaxRetries <= |o| then OnFlushDone(s, t, o) else s
  }

  /** The state after a trace of events, applied first to last. */
  function Run(s: State, trace: seq<Event>): (s': State)
    requires Inv(s)
    ensures Inv(s')
    decreases |trace|
  {
    if |trace| == 0 then s else Step(Run(s, trace[..|trace| - 1]), trace[|trace| - 1])
  }

  lemma InitInv()
    ensures Inv(Init)
  {
  }
}

=== FILE: isolation.dfy ===
/** Per-chat isolation. `View(s, d)` is everything the state holds about chat
    `d`; the behaviour of one chat does not depend on the events of any
    other, so a flush for one chat never sees another chat's text. */
module Isolation {
  import opened RelayTypes
  import opened Retries
  import opened Text
  import opened Debounce

  /** Chat `d`'s buffer, stored handle, pending timers, running callbacks,
      timer count and finished callbacks. */
  datatype ChatView = ChatView(
    buffer: Option<seq<string>>,
    handle: Option<Timer>,
    pending: set<Timer>,
    flights: map<Timer, string>,
    armed: nat,
    effects: seq<Effect>)

  /** The entries of `log` about chat `d`, in order. */
  function EffectsOf(log: seq<Effect>, d: ChatId): (r: seq<Effect>)
    ensures |r| <= |log|
    ensures forall i :: 0 <= i < |r| ==> r[i].chat == d
    decreases |log|
  {
    if |log| == 0 then []
    else if Last(log).chat == d then EffectsOf(log[..|log| - 1], d) + [Last(log)]
    else EffectsOf(log[..|log| - 1], d)
  }

  /** The timers of chat `d` among `ts`. */
  function TimersOf(ts: set<Timer>, d: ChatId): (r: set<Timer>)
    ensures forall t :: t in r <==> t in ts && t.chat == d
  {
    set t | t in ts && t.chat == d
  }

  /** The entries of chat `d` in `fs`. */
  function FlightsIn(fs: map<Timer, string>, d: ChatId): (r: map<Timer, string>)
    ensures forall t :: t in r <==> t in fs && t.chat == d
    ensures forall t :: t in r ==> r[t] == fs[t]
  {
    map t | t in fs && t.chat == d :: fs[t]
  }

  /** A chat with no buffer, no stored handle and no pending timer, whose
      running callbacks (if any) were armed before now. */
  predicate Idle(v: ChatView) {
    && v.buffer == None && v.handle == None && v.pending == {}
    && forall t :: t in v.flights ==> t.id < v.armed
  }

  function PendingOf(s: State, d: ChatId): set<Timer> {
    TimersOf(s.scheduled, d)
  }

  function FlightsOf(s: State, d: ChatId): map<Timer, string> {
    FlightsIn(s.flushing, d)
  }

  lemma TimersOfRemove(ts: set<Timer>, t: Timer, d: ChatId)
    ensures TimersOf(ts - {t}, d) == if t.chat == d then TimersOf(ts, d) - {t} else TimersOf(ts, d)
  {
  }

  lemma TimersOfAdd(ts: set<Timer>, t: Timer, d: ChatId)
    ensures TimersOf(ts + {t}, d) == if t.chat == d then TimersOf(ts, d) + {t} else TimersOf(ts, d)
  {
  }

  lemma FlightsInRemove(fs: map<Timer, string>, t: Timer, d: ChatId)
    ensures FlightsIn(fs - {t}, d) == if t.chat == d then FlightsIn(fs, d) - {t} else FlightsIn(fs, d)
  {
  }

  lemma FlightsInUpdate(fs: map<Timer, string>, t: Timer, p: string, d: ChatId)
    ensures FlightsIn(fs[t := p], d) == if t.chat == d then FlightsIn(fs, d)[t := p] else FlightsIn(fs, d)
  {
  }

  function View(s: State, d: ChatId): ChatView {
    ChatView(
      if d in s.buffers then Some(s.buffers[d]) else None,
      if d in s.timeouts then Some(s.timeouts[d]) else None,
      PendingOf(s, d),
      FlightsOf(s, d),
      ArmedFor(s, d),
      EffectsOf(s.log, d))
  }

  /** The events of `trace` that concern chat `d`, in order. */
  function OnlyChat(trace: seq<Event>, d: ChatId): (r: seq<Event>)
    ensures |r| <= |trace|
    ensures forall i :: 0 <= i < |r| ==> EventChat(r[i]) == d
    decreases |trace|
  {
    if |trace| == 0 then []
    else if EventChat(Last(trace)) == d then OnlyChat(trace[..|trace| - 1], d) + [Last(trace)]
    else OnlyChat(trace[..|trace| - 1], d)
  }

  lemma EffectsOfSnoc(log: seq<Effect>, x: Effect, d: ChatId)
    ensures EffectsOf(log + [x], d) == if x.chat == d then EffectsOf(log, d) + [x] else EffectsOf(log, d)
  {
    assert (log + [x])[..|log|] == log;
  }

  /** The machine of one chat on its own: what `Step` does to the view of
      the event's chat, computed from that view alone. */
  function ChatStep(v: ChatView, e: Event): (v': ChatView)
    ensures e.Incoming? && Accepted(e.msg) ==> v'.armed == v.armed + 1 && v'.effects == v.effects
    ensures e.Incoming? && !Accepted(e.msg) ==> v' == v
    ensures e.Fire? ==> v'.buffer == v.buffer && v'.handle == v.handle && v'.effects == v.effects
    ensures e.FlushDone? ==> v'.pending == v.pending && v'.armed == v.armed
  {
    match e
    case Incoming(m) =>
      if !Accepted(m) then v
      else
        var t := Timer(m.chatId, v.armed, m.from, m.body);
        var pending := if v.handle.Some? then v.pending - {v.handle.value} else v.pending;
        v.(buffer := Some(if v.buffer.Some? then v.buffer.value + [m.body] else [m.body]),
           handle := Some(t),
           pending := pending + {t},
           armed := v.armed + 1)
    case Fire(t) =>
      if t !in v.pending then v
      else
        var prompt := if v.buffer.Some? then Join(v.buffer.value, Separator) else t.body;
        v.(pending := v.pending - {t}, flights := v.flights[t := prompt])
    case FlushDone(t, o) =>
      if t !in v.flights || |o| < MaxRetries then v
      else
        match Retry(o)
        case Answered(answer, attempts) =>
          v.(buffer := None, handle := None, flights := v.flights - {t},
             effects := v.effects + [Replied(t.chat, t.from, v.flights[t], answer, attempts)])
        case GaveUp(error, _) =>
          v.(flights := v.flights - {t}, effects := v.effects + [Abandoned(t.chat, v.flights[t], error)])
  }

  /** The per-chat machine over a trace of that chat's events. */
  function ChatRun(v: ChatView, trace: seq<Event>): ChatView
    decreases |trace|
  {
    if |trace| == 0 then v else ChatStep(ChatRun(v, trace[..|trace| - 1]), Last(trace))
  }

  /** The global machine is the product of the per-chat machines: an event
      moves its own chat as `ChatStep` says and leaves every other chat as
      it was. */
  lemma StepProjects(s: State, e: Event, d: ChatId)
    requires Inv(s)
    ensures View(Step(s, e), d) == if EventChat(e) == d then ChatStep(View(s, d), e) else View(s, d)
  {
    match e
    case Incoming(m) =>
      if Accepted(m) {
        if m.chatId == d {
          MessageHere(s, m);
        } else {
          MessageElsewhere(s, m, d);
        }
      }
    case Fire(t) =>
      assert t in s.scheduled && t.chat == d <==> t in PendingOf(s, d);
      if t in s.scheduled {
        if t.chat == d {
          FireHere(s, t);
        } else {
          FireElsewhere(s, t, d);
        }
      }
    case FlushDone(t, o) =>
      assert t in s.flushing && t.chat == d <==> t in FlightsOf(s, d);
      if t in s.flushing && MaxRetries <= |o| {
        if t.chat == d {
          FlushDoneHere(s, t, o);
        } else {
          FlushDoneElsewhere(s, t, o, d);
        }
      }
  }

  lemma MessageElsewhere(s: State, m: Inbound, d: ChatId)
    requires Inv(s)
    requires m.chatId != d
    ensures View(OnMessage(s, m), d) == View(s, d)
  {
    var s' := OnMessage(s, m);
    assert ArmedFor(s', d) == ArmedFor(s, d);
    if m.chatId in s.timeouts {
      TimersOfRemove(s.scheduled, s.timeouts[m.chatId], d);
      TimersOfAdd(s.scheduled - {s.timeouts[m.chatId]}, s'.timeouts[m.chatId], d);
    } else {
      TimersOfAdd(s.scheduled, s'.timeouts[m.chatId], d);
    }
  }

  lemma FireElsewhere(s: State, t: Timer, d: ChatId)
    requires Inv(s)
    requires t in s.scheduled && t.chat != d
    ensures View(OnFire(s, t), d) == View(s, d)
  {
    var s' := OnFire(s, t);
    TimersOfRemove(s.scheduled, t, d);
    FlightsInUpdate(s.flushing, t, s'.flushing[t], d);
  }

  lemma FlushDoneElsewhere(s: State, t: Timer, o: seq<Outcome>, d: ChatId)
    requires Inv(s)
    requires t in s.flushing && MaxRetries <= |o| && t.chat != d
    ensures View(OnFlushDone(s, t, o), d) == View(s, d)
  {
    var s' := OnFlushDone(s, t, o);
    FlightsInRemove(s.flushing, t, d);
    assert s'.log == s.log + [Last(s'.log)];
    EffectsOfSnoc(s.log, Last(s'.log), d);
  }

  lemma MessageHere(s: State, m: Inbound)
    requires Inv(s)
    requires Accepted(m)
    ensures View(OnMessage(s, m), m.chatId) == ChatStep(View(s, m.chatId), Incoming(m))
  {
    var c := m.chatId;
    var s' := OnMessage(s, m);
    if c in s.timeouts {
      TimersOfRemove(s.scheduled, s.timeouts[c], c);
      TimersOfAdd(s.scheduled - {s.timeouts[c]}, s'.timeouts[c], c);
    } else {
      TimersOfAdd(s.scheduled, s'.timeouts[c], c);
    }
  }

  lemma FireHere(s: State, t: Timer)
    requires Inv(s)
    requires t in s.scheduled
    ensures View(OnFire(s, t), t.chat) == ChatStep(View(s, t.chat), Fire(t))
  {
    var s' := OnFire(s, t);
    TimersOfRemove(s.scheduled, t, t.chat);
    FlightsInUpdate(s.flushing, t, s'.flushing[t], t.chat);
  }

  lemma FlushDoneHere(s: State, t: Timer, o: seq<Outcome>)
    requires Inv(s)
    requires t in s.flushing && MaxRetries <= |o|
    ensures View(OnFlushDone(s, t, o), t.chat) == ChatStep(View(s, t.chat), FlushDone(t, o))
  {
    var s' := OnFlushDone(s, t, o);
    assert t in FlightsOf(s, t.chat);
    FlightsInRemove(s.flushing, t, t.chat);
    assert s'.log == s.log + [Last(s'.log)];
    EffectsOfSnoc(s.log, Last(s'.log), t.chat);
  }

  /** A trace with no event about chat `d` leaves `d` untouched. */
  lemma {:induction false} RunElsewhere(s: State, trace: seq<Event>, d: ChatId)
    requires Inv(s)
    requires forall i :: 0 <= i < |trace| ==> EventChat(trace[i]) != d
    ensures View(Run(s, trace), d) == View(s, d)
    decreases |trace|
  {
    if |trace| > 0 {
      var init := trace[..|trace| - 1];
      RunElsewhere(s, init, d);
      StepProjects(Run(s, init), Last(trace), d);
    }
  }

  /** Chat `d` after any interleaving of events is chat `d`'s own machine
      run over just its own events: the other chats' events change nothing
      about `d`, its buffer, its timers, the prompts of its flushes or its
      replies. */
  lemma {:induction false} RunProjects(s: State, trace: seq<Event>, d: ChatId)
    requires Inv(s)
    ensures View(Run(s, trace), d) == ChatRun(View(s, d), OnlyChat(trace, d))
    decreases |trace|
  {
    if |trace| > 0 {
      var init := trace[..|trace| - 1];
      var e := Last(trace);
      RunProjects(s, init, d);
      StepProjects(Run(s, init), e, d);
      if EventChat(e) == d {
        var only := OnlyChat(init, d);
        assert OnlyChat(trace, d) == only + [e];
        assert (only + [e])[..|only|] == only;
      }
    }
  }
}

=== FILE: quirks.dfy ===
/** Consequences of the handler as written when messages arrive while a
    flush is running. The buffer and the stored handle are deleted only
    after a successful send; firing a timer removes neither; deleting the
    handle does not cancel the timer it names. Each lemma plays one
    interleaving of one chat's events through the per-chat machine, which
    `Isolation.RunProjects` shows is what the whole relay does to that chat
    whatever the other chats do. */
module Quirks {
  import opened RelayTypes
  import opened Retries
  import opened Text
  import opened Debounce
  import opened Isolation

  /** Two accepted messages to the same chat. */
  predicate Both(a: Inbound, b: Inbound) {
    Accepted(a) && Accepted(b) && a.chatId == b.chatId
  }

  /** "a"; its timer fires; "b" and "c" arrive while "a" is being answered.
      The answer to "a" deletes the buffer ["a", "b", "c"]; the timer armed
      by "c" then finds no buffer and sends only "c". The body "b" reaches
      no provider call and is left nowhere. */
  lemma MiddleMessageDropped(v: ChatView, a: Inbound, b: Inbound, c: Inbound, o: seq<Outcome>)
    requires Idle(v) && Both(a, b) && Both(a, c)
    requires MaxRetries <= |o| && Retry(o).Answered?
    ensures
      var v1 := ChatStep(v, Incoming(a));
      var t0 := v1.handle.value;
      var v4 := ChatStep(ChatStep(ChatStep(v1, Fire(t0)), Incoming(b)), Incoming(c));
      var t2 := v4.handle.value;
      var v5 := ChatStep(v4, FlushDone(t0, o));
      var v6 := ChatStep(v5, Fire(t2));
      && v4.buffer == Some([a.body, b.body, c.body])
      && v5.effects == v.effects + [Replied(a.chatId, a.from, a.body, Retry(o).answer, Retry(o).attempts)]
      && v6.buffer == None && v6.handle == None && v6.pending == {}
      && v6.flights == v.flights[t2 := c.body]
  {
    var v1 := ChatStep(v, Incoming(a));
    var t0 := v1.handle.value;
    var v2 := ChatStep(v1, Fire(t0));
    var v3 := ChatStep(v2, Incoming(b));
    var v4 := ChatStep(v3, Incoming(c));
    var t2 := v4.handle.value;
    assert t0 !in v.flights;
    assert v4.flights == v.flights[t0 := a.body];
    assert v4.pending == {t2};
    var v5 := ChatStep(v4, FlushDone(t0, o));
    assert [a.body] + [b.body] + [c.body] == [a.body, b.body, c.body];
    assert v5.flights == v.flights && v5.pending == {t2};
    assert t2 !in v.flights;
  }

  /** "a"; its timer fires; all three provider calls throw. Nothing is
      deleted, so, if the process survives the rethrow, the next message "b"
      is appended to ["a"] and its flush asks the provider about "a \n b":
      the failed text is sent again. */
  lemma FailedTextResent(v: ChatView, a: Inbound, b: Inbound, o: seq<Outcome>)
    requires Idle(v) && Both(a, b)
    requires MaxRetries <= |o| && Retry(o).GaveUp?
    ensures
      var v1 := ChatStep(v, Incoming(a));
      var t0 := v1.handle.value;
      var v3 := ChatStep(ChatStep(v1, Fire(t0)), FlushDone(t0, o));
      var v4 := ChatStep(v3, Incoming(b));
      var t1 := v4.handle.value;
      var v5 := ChatStep(v4, Fire(t1));
      && v3.buffer == Some([a.body]) && v3.handle == Some(t0)
      && v3.effects == v.effects + [Abandoned(a.chatId, a.body, Retry(o).error)]
      && v5.flights == v.flights[t1 := a.body + " \n " + b.body]
  {
    var v1 := ChatStep(v, Incoming(a));
    var t0 := v1.handle.value;
    var v2 := ChatStep(v1, Fire(t0));
    assert t0 !in v.flights;
    var v3 := ChatStep(v2, FlushDone(t0, o));
    assert v3.flights == v.flights;
    JoinTwo(a.body, b.body);
    assert [a.body] + [b.body] == [a.body, b.body];
  }

  /** "a"; its timer fires; "b" arrives and its timer fires while "a" is
      still being answered. Two callbacks for one chat now call the
      provider at the same time, and the second one's prompt repeats "a". */
  lemma FlushesOverlap(v: ChatView, a: Inbound, b: Inbound)
    requires Idle(v) && Both(a, b)
    ensures
      var v1 := ChatStep(v, Incoming(a));
      var t0 := v1.handle.value;
      var v3 := ChatStep(ChatStep(v1, Fire(t0)), Incoming(b));
      var t1 := v3.handle.value;
      var v4 := ChatStep(v3, Fire(t1));
      && t0 != t1
      && v4.flights == v.flights[t0 := a.body][t1 := a.body + " \n " + b.body]
  {
    var v1 := ChatStep(v, Incoming(a));
    var t0 := v1.handle.value;
    var v2 := ChatStep(v1, Fire(t0));
    var v3 := ChatStep(v2, Incoming(b));
    var t1 := v3.handle.value;
    assert v3.pending == {t1};
    JoinTwo(a.body, b.body);
    assert [a.body] + [b.body] == [a.body, b.body];
  }

  /** "a"; its timer fires; "b" arrives during the flush; the answer to "a"
      deletes the stored handle of "b"'s timer without cancelling it; "c"
      then finds no handle to cancel. Two timers of one chat are pending. */
  lemma OrphanTimerStaysPending(v: ChatView, a: Inbound, b: Inbound, c: Inbound, o: seq<Outcome>)
    requires Idle(v) && Both(a, b) && Both(a, c)
    requires MaxRetries <= |o| && Retry(o).Answered?
    ensures
      var v1 := ChatStep(v, Incoming(a));
      var t0 := v1.handle.value;
      var v3 := ChatStep(ChatStep(v1, Fire(t0)), Incoming(b));
      var t1 := v3.handle.value;
      var v5 := ChatStep(ChatStep(v3, FlushDone(t0, o)), Incoming(c));
      var t2 := v5.handle.value;
      && t1 != t2 && t1.chat == t2.chat
      && v5.pending == {t1, t2}
      && v5.buffer == Some([c.body]) && v5.handle == Some(t2) && t2.body == c.body
      && t1 !in v5.flights && t2 !in v5.flights
  {
    var v1 := ChatStep(v, Incoming(a));
    var t0 := v1.handle.value;
    var v2 := ChatStep(v1, Fire(t0));
    var v3 := ChatStep(v2, Incoming(b));
    var t1 := v3.handle.value;
    assert t0 !in v.flights;
    assert v3.pending == {t1};
    var v4 := ChatStep(v3, FlushDone(t0, o));
    assert v4.pending == {t1} && v4.handle == None;
    assert v4.flights == v.flights;
  }

  /** From two pending timers, the stale one first and then the stored one,
      where the buffer holds one body: both callbacks send that same body,
      so the sender is answered twice about one message. */
  lemma StaleTimerRepeatsBody(v: ChatView, stale: Timer, current: Timer, o1: seq<Outcome>, o2: seq<Outcome>)
    requires stale != current && stale.chat == current.chat
    requires v.pending == {stale, current} && v.handle == Some(current)
    requires v.buffer == Some([current.body])
    requires stale !in v.flights && current !in v.flights
    requires MaxRetries <= |o1| && Retry(o1).Answered?
    requires MaxRetries <= |o2| && Retry(o2).Answered?
    ensures
      var v2 := ChatStep(ChatStep(v, Fire(stale)), FlushDone(stale, o1));
      var v4 := ChatStep(ChatStep(v2, Fire(current)), FlushDone(current, o2));
      && v4.effects == v.effects
           + [Replied(stale.chat, stale.from, current.body, Retry(o1).answer, Retry(o1).attempts)]
           + [Replied(current.chat, current.from, current.body, Retry(o2).answer, Retry(o2).attempts)]
      && v4.pending == {} && v4.flights == v.flights
  {
    var v1 := ChatStep(v, Fire(stale));
    assert v1.flights[stale] == current.body;
    var v2 := ChatStep(v1, FlushDone(stale, o1));
    assert v2.pending == {current} && v2.buffer == None;
    assert v2.flights == v.flights;
  }
}

=== FILE: relay_types.dfy ===
/** Values shared by every part of the relay: chat identifiers, the optional
    values environment variables are read as, and the inbound message record
    the messaging client hands to the message handler. */
module RelayTypes {

  /** A stable identifier of one conversation, e.g. "5511999999999@c.us". */
  type ChatId = string

  datatype Option<+T> = None | Some(value: T)

  /** The fields of an inbound message event that the handler reads. */
  datatype Inbound = Inbound(kind: string, isGroupMsg: bool, chatId: ChatId, from: string, body: string)

  /** The pseudo-chat on which status updates arrive. */
  const StatusBroadcast: ChatId := "status@broadcast"

  /** The handler's filter: one-to-one text chats only, never the status feed. */
  predicate Accepted(m: Inbound) {
    m.kind == "chat" && !m.isGroupMsg && m.chatId != StatusBroadcast
  }
}

=== FILE: retries.dfy ===
/** The retry loop around the AI call. The provider is opaque: `outcomes[i]`
    is what it does on attempt i + 1, either return an answer or throw. */
module Retries {

  const MaxRetries: nat := 3

  datatype Outcome = Ok(answer: string) | Err(error: string)

  /** How a run of the loop ends: with the first answer, or by rethrowing the
      error of the last attempt. `attempts` counts provider calls made. */
  datatype RetryResult = Answered(answer: string, attempts: nat) | GaveUp(error: string, attempts: nat)

  /** The loop from attempt number `attempt` (1-based) on. */
  function RetryFrom(outcomes: seq<Outcome>, attempt: nat): (r: RetryResult)
    requires 1 <= attempt <= MaxRetries <= |outcomes|
    ensures attempt <= r.attempts <= MaxRetries
    ensures forall i :: attempt - 1 <= i < r.attempts - 1 ==> outcomes[i].Err?
    ensures r.Answered? ==> outcomes[r.attempts - 1] == Ok(r.answer)
    ensures r.GaveUp? ==> r.attempts == MaxRetries && outcomes[MaxRetries - 1] == Err(r.error)
    decreases MaxRetries - attempt
  {
    match outcomes[attempt - 1]
    case Ok(a) => Answered(a, attempt)
    case Err(e) => if attempt == MaxRetries then GaveUp(e, attempt) else RetryFrom(outcomes, attempt + 1)
  }

  /** The whole loop: every attempt before the last one made failed, the last
      one made either answered or was the third. */
  function Retry(outcomes: seq<Outcome>): (r: RetryResult)
    requires MaxRetries <= |outcomes|
    ensures 1 <= r.attempts <= MaxRetries
    ensures forall i :: 0 <= i < r.attempts - 1 ==> outcomes[i].Err?
    ensures r.Answered? ==> outcomes[r.attempts - 1] == Ok(r.answer)
    ensures r.GaveUp? ==> r.attempts == MaxRetries && outcomes[MaxRetries - 1] == Err(r.error)
  {
    RetryFrom(outcomes, 1)
  }

  /** If attempts 1 .. k-1 fail and attempt k succeeds, the loop makes
      exactly k calls and keeps the k-th answer. */
  lemma RetryStopsAtFirstSuccess(outcomes: seq<Outcome>, k: nat)
    requires MaxRetries <= |outcomes|
    requires 1 <= k <= MaxRetries
    requires forall i :: 0 <= i < k - 1 ==> outcomes[i].Err?
    requires outcomes[k - 1].Ok?
    ensures Retry(outcomes) == Answered(outcomes[k - 1].answer, k)
  {
  }

  /** The loop gives up exactly when all three attempts fail, and then
      rethrows the third error. */
  lemma RetryGivesUpIffAllFail(outcomes: seq<Outcome>)
    requires MaxRetries <= |outcomes|
    ensures Retry(outcomes).GaveUp? <==> forall i :: 0 <= i < MaxRetries ==> outcomes[i].Err?
    ensures Retry(outcomes).GaveUp? ==> Retry(outcomes).error == outcomes[MaxRetries - 1].error
  {
  }

  /** The loop as written: attempts numbered from 1, return on the first
      answer, and rethrow the error of the attempt numbered `MaxRetries`.
      The loop never runs out: its last attempt always returns. */
  method RunAttempts(outcomes: seq<Outcome>) returns (r: RetryResult)
    requires MaxRetries <= |outcomes|
    ensures r == Retry(outcomes)
  {
    var attempt := 1;
    while attempt <= MaxRetries
      invariant 1 <= attempt <= MaxRetries
      invariant forall i :: 0 <= i < attempt - 1 ==> outcomes[i].Err?
    {
      match outcomes[attempt - 1] {
        case Ok(a) =>
          RetryStopsAtFirstSuccess(outcomes, attempt);
          return Answered(a, attempt);
        case Err(e) =>
          if attempt == MaxRetries {
            RetryGivesUpIffAllFail(outcomes);
            return GaveUp(e, attempt);
          }
      }
      attempt := attempt + 1;
    }
    assert false;
  }
}

=== FILE: text.dfy ===
/** Joining a chat's buffered bodies into the single prompt sent to the
    provider (`Array.prototype.join`). */
module Text {

  /** The separator the flush callback joins with: space, newline, space. */
  const Separator: string := " \n "

  function TotalLength(parts: seq<string>): nat {
    if |parts| == 0 then 0 else |parts[0]| + TotalLength(parts[1..])
  }

  /** The parts in order with `sep` between neighbours; "" for no parts. */
  function Join(parts: seq<string>, sep: string): (r: string)
    ensures |parts| == 0 ==> r == ""
    ensures |parts| >= 1 ==> |r| == TotalLength(parts) + (|parts| - 1) * |sep|
    ensures |parts| >= 1 ==> r[..|parts[0]|] == parts[0]
  {
    if |parts| == 0 then ""
    else if |parts| == 1 then parts[0]
    else parts[0] + sep + Join(parts[1..], sep)
  }

  /** Appending a part at the end appends it, after one separator, at the
      end of the joined text: arrival order is text order. */
  lemma {:induction false} JoinSnoc(parts: seq<string>, x: string, sep: string)
    requires |parts| >= 1
    ensures Join(parts + [x], sep) == Join(parts, sep) + sep + x
  {
    if |parts| == 1 {
      assert parts + [x] == [parts[0], x];
      assert (parts + [x])[1..] == [x];
    } else {
      assert (parts + [x])[1..] == parts[1..] + [x];
      JoinSnoc(parts[1..], x, sep);
    }
  }

  /** Two messages "a" then "b" give "a \n b". */
  lemma JoinTwo(a: string, b: string)
    ensures Join([a, b], Separator) == a + " \n " + b
  {
    assert [a, b][1..] == [b];
  }
}
